=== FILE: README.md ===
# Database admin UI core, modelled in Dafny

This project models the logic core of a browser admin UI for generic
table-backed REST APIs:

- **Filter compiler** (`DatabaseAPI.buildQueryParams`). It turns the filters
  object, one condition per field, into a flat query-parameter object. The
  rules depend on the condition's type and operator, and a later write to a
  parameter wins. `getList` then assembles that object with the pagination and
  ordering parameters.
- **Type inference** (`inferFieldType`). It classifies a sample value as
  `varchar`, `timestamp`, `date`, `int` or `decimal`. `getTableSchema` and
  `getTableSchemaWithTypes` read the schema from the first row of a one-row
  list request.
- **Connection registry** (the Pinia store). It keeps a list of connection
  records and an active id, written through to browser storage. The store
  supports add, update, delete, set-active and the lookups. Separately,
  `importConnections`, `exportConnections` and `clearAllConnections` act on
  storage directly.

Files, one module each:

| file | module | models |
|---|---|---|
| `wrappers.dfy` | `Wrappers` | `Option` / `Result` |
| `js_values.dfy` | `JsValues` | JavaScript values, `===`, truthiness, property reads, default parameters |
| `decimal.dfy` | `Decimal` | decimal rendering of integers (`Date.now().toString()`, template literals) |
| `query_params.dfy` | `QueryParams` | `buildQueryParams`, the `getList` parameter object |
| `type_inference.dfy` | `TypeInference` | the two regular expressions, `inferFieldType`, the schema functions |
| `local_storage.dfy` | `LocalStorage` | the two storage items |
| `connections.dfy` | `Connections` | the connection record built by add and import |
| `connection_store.dfy` | `ConnectionStore` | the store (`src/stores/database.js`) |
| `import_connections.dfy` | `ImportConnections` | `src/utils/importConnections.js` |

Modelling choices:

- **JavaScript values.** A value is `JsValue`: `Undefined`, `Null`, `Bool`,
  `Num` (a finite real), `Str` or `Ref` (an object, compared by identity).
  Datatype equality is therefore `===`. `Truthy` is JavaScript's ToBoolean.
  Plain objects (connection records, configs, `updates`) are
  `map<string, JsValue>`. Object spread is map union, where the right side
  wins. A row returned by a list request is instead the list of its
  properties (`Field(name, value)`) in `Object.keys` order.
- **The filters object.** It is the list of its entries in `Object.keys`
  order. An absent (`null`/`undefined`) filters object is `None`.
- **Specifying the compiler.** The compiler is specified one parameter at a
  time. `Emits(e, p)` is the value, if any, that entry `e` gives parameter
  `p`. `Lookup(es, p)` is the value the last entry writing `p` gives it.
  `CompiledFrom(es, params)` holds exactly when `params` agrees with `Lookup`
  on every parameter name.
  `BuildQueryParams` runs the source's loop of assignments (`Assign`) and is
  proved to produce that map. `CompiledFromUnique` shows the description
  determines the map.
- **The two regular expressions.** Each is a fixed-length token pattern
  (`\d`, `\s`, literal). A prefix matcher runs it, and lemmas prove the matcher
  equal to positional reference predicates. `\s` is ECMAScript's full
  whitespace and line-terminator set.
- **Store operations.** These are pure transitions on
  `Store(connections, activeId, disk)`. The clock (`Date.now()`) and the ISO
  time strings are parameters. An API client (`new DatabaseAPI(baseURL)`) is
  represented by its base URL.
- **Storage.** `localStorage` is `Storage(connections, activeId)`. The stored
  list is either `Parsed(list)` or `Unparsable` (`JSON.parse` throws).

## Behaviour worth knowing

Each of these follows from the cited lines. The model reproduces it:

- **One condition per field** (`src/api/database.js:22-29`). Each key of the
  filters object holds a single condition object. The compiler reads `type`,
  `operator`, `value`, `startDate` and `endDate` from it.
- **Numeric `=`** (`src/api/database.js:48-50`). It writes the parameter named
  after the bare field.
- **Other numeric operators** (`src/api/database.js:35-51`). The `switch` has no
  `default` branch, so an operator other than the five listed writes nothing.
- **`varchar`** (`src/api/database.js:54-57`). It always writes `<field>_like`,
  whatever the operator.
- **Date and timestamp filters** (`src/api/database.js:25-27`, `59-68`). The
  emptiness test on `value` runs before the type switch. So an entry with an
  empty `value` is dropped even when it carries `startDate` or `endDate`.
- **Timestamp pattern** (`src/api/database.js:171`). The date/time separator is
  `\s`, which is any whitespace or line-terminator character. The pattern is
  anchored only at the start, so trailing text is allowed.
- **Schema source** (`src/api/database.js:144-156`, `192-209`). Both schema
  functions take the field names from the first row of a one-row list request.
  An error gives the empty schema.
- **Batch timestamps** (`src/utils/importConnections.js:106-113`). The id
  timestamp is read once per import, but `createdAt` is read once per record.
  So the records of one batch share an id prefix and can carry different
  `createdAt` values.

## Model

| member | source | states |
|---|---|---|
| `QueryParams.BuildQueryParams` | src/api/database.js:17-77 | An absent filters object gives `{}`. Otherwise, for every parameter name, the result agrees with `Lookup`: the parameter is present iff some entry writes it, with the value from the last entry that writes it (key order). |
| `QueryParams.AssignMatchesEmits` | src/api/database.js:29-73 | One pass of the switch changes exactly the parameters the entry's condition emits and keeps every other parameter. |
| `QueryParams.CompiledFromAppend` | src/api/database.js:22-74 | Processing one more entry turns the compilation of a prefix into the compilation of the longer prefix. |
| `QueryParams.LastSomeIsLastWrite` | src/api/database.js:22-74 | Over a sequence of optional writes, there is a final value iff some write is present, and it is the value of the last present write. |
| `QueryParams.LookupIsLastWrite` | src/api/database.js:22-74 | A parameter is compiled iff some entry writes it. Its value is the one from the last entry that writes it. |
| `QueryParams.CompiledFromUnique` | src/api/database.js:22-74 | Last-write-wins over the entries fixes the parameter object: two objects that both satisfy it are equal. |
| `QueryParams.AllSkippedGivesNothing` | src/api/database.js:18-27 | If every entry is falsy or has an empty value, no parameter is compiled. |
| `QueryParams.SkippedWritesNothing` | src/api/database.js:25-27 | An entry whose condition is missing, or whose `value` is `undefined`, `null` or `''`, writes no parameter. This holds even for a date condition that carries `startDate`/`endDate`. |
| `QueryParams.ZeroAndFalseAreValues` | src/api/database.js:25-27 | The emptiness test is strict. `0` and `false` are kept, so an `int` `=` condition with value `0` writes the field. |
| `QueryParams.NumericOperators` | src/api/database.js:31-52 | For `int`/`decimal`: `>`, `>=`, `<`, `<=` each write exactly one parameter, `k_gt`/`k_gte`/`k_lt`/`k_lte`, bound to `value`. `=` writes exactly `k`. Any other operator writes nothing. |
| `QueryParams.VarcharLike` | src/api/database.js:54-57 | A `varchar` condition writes exactly `k_like = value`, whatever its operator. |
| `QueryParams.DateRanges` | src/api/database.js:59-68 | A `date`/`timestamp` condition writes `k_start = startDate` iff `startDate` is truthy, and `k_end = endDate` iff `endDate` is truthy. It writes nothing else: never `k`, never `value`. |
| `QueryParams.DefaultExactMatch` | src/api/database.js:70-72 | A condition of any other type, missing type included, writes exactly `k = value`. |
| `QueryParams.ListParams` | src/api/database.js:88-98 | The keys are `page`, `page_size` and every filter parameter, plus `order_by`/`order_desc` when `orderBy` is truthy. Filter parameters override `page`/`page_size`. `order_by`/`order_desc` override filter parameters. Defaults are 1, 10, `''` and `false`. |
| `TypeInference.MatchesPrefix` | src/api/database.js:171 | A start-anchored fixed-length pattern matches iff the string is at least as long as the pattern and each position matches its token. |
| `TypeInference.TimestampPatternMeaning` | src/api/database.js:171 | `^\d{4}-\d{2}-\d{2}\s\d{2}:\d{2}:\d{2}` matches iff the string starts with date digits, `\s`, and `HH:MM:SS` digits. |
| `TypeInference.DatePatternMeaning` | src/api/database.js:175 | `^\d{4}-\d{2}-\d{2}$` matches iff the string is exactly `YYYY-MM-DD` in digits. |
| `TypeInference.InferFieldType` | src/api/database.js:163-186 | `null`/`undefined`, booleans and objects give `varchar`. A number gives `int` iff it is integral, else `decimal`. A string gives `timestamp` iff it has the timestamp shape, `date` iff it has the exact date shape, and `varchar` otherwise. |
| `TypeInference.TimestampAllowsTrailingText` | src/api/database.js:171-173 | Text appended to a timestamp string keeps it a timestamp, because the pattern is not end-anchored. |
| `TypeInference.DateIsExact` | src/api/database.js:175-177 | Appending anything to a date string makes it a timestamp or text, never a date. |
| `TypeInference.TimestampAndDateDisjoint` | src/api/database.js:169-178 | No string has both shapes, so the order of the two tests does not matter. |
| `TypeInference.SampleRow` | src/api/database.js:146-148 | There is a sample row iff the request returned a `data.data` list with at least one row. The sample row is then that list's first row. |
| `TypeInference.TableSchema` | src/api/database.js:144-156 | An error, a missing `data.data` or zero rows gives `[]`. Otherwise the result is the first row's property names, in order. |
| `TypeInference.RowTypes` | src/api/database.js:197-201 | The keys are exactly the row's property names. Each name is mapped to the inferred type of the last value with that name. |
| `TypeInference.TableSchemaWithTypes` | src/api/database.js:192-209 | An error or no rows gives `{}`. Otherwise the keys are exactly the names `getTableSchema` lists, each mapped by `inferFieldType` of the first row's value. |
| `TypeInference.SampleRowExample` | src/api/database.js:192-209 | A first row `{id: 1, name: "a"}` gives `{id: int, name: varchar}`. |
| `Decimal.NatToString` | src/stores/database.js:47 | The decimal rendering of a timestamp is a non-empty string of digits, with no leading zero except for 0 itself. |
| `Decimal.DigitsValueOfNatToString` | src/stores/database.js:47 | Reading the rendered numeral back gives the number. |
| `Decimal.NatToStringInjective` | src/utils/importConnections.js:108 | Distinct numbers render as distinct strings. |
| `Connections.NewRecord` | src/stores/database.js:46-53 | The record has exactly the fields `id`, `name`, `baseURL`, `tableName`, `description` and `createdAt`. `id` and `createdAt` are the given values. The three copied fields equal the input's. `description` is the input's when truthy and `''` otherwise. |
| `ConnectionStore.FindFrom` | src/stores/database.js:63 | The scan returns the first index from `from` whose record has the id, and `None` iff no record from `from` on has it. |
| `ConnectionStore.FindIndex` | src/stores/database.js:63 | `None` iff no record has the id. Otherwise the result is the first record with it. |
| `ConnectionStore.LoadConnections` | src/stores/database.js:16-30 | The stored list replaces the in-memory one when present. A truthy stored active id is loaded even if no record carries it. If the stored list does not parse, nothing changes and the active id is not read. |
| `ConnectionStore.InitialStore` | src/stores/database.js:10-13 | The freshly loaded store's active id, when truthy, is the persisted one. |
| `ConnectionStore.SaveConnections` | src/stores/database.js:33-42 | The list item becomes the in-memory list. The active-id item is written with a truthy active id and otherwise left as it was. Memory is unchanged. |
| `ConnectionStore.SaveThenLoad` | src/stores/database.js:16-42 | Reloading after a save gives the list back. A truthy active id also comes back. With a falsy one, the previously stored id is loaded if it is truthy, and otherwise the in-memory id stays. |
| `ConnectionStore.AddConnection` | src/stores/database.js:45-59 | Adding appends exactly one record and leaves the earlier records unchanged. The new id is `Date.now()` in decimal. `name`/`baseURL`/`tableName` are copied. `description` is copied when truthy and is `''` otherwise. `createdAt` is the given time string. The record has exactly these six fields. The added record is returned. The in-memory active id is unchanged. The list item becomes the new list, and the active-id item is written when the active id is truthy and kept otherwise. |
| `ConnectionStore.Merge` | src/stores/database.js:65-69 | In `{...old, ...updates, updatedAt}`, each field comes from `updatedAt`, else `updates`, else the old record. The keys are the union. |
| `ConnectionStore.UpdateConnection` | src/stores/database.js:62-74 | Returns true iff some record has the id. If not, nothing changes. If so, only the first such record is replaced by the merge. The length and all other records are unchanged. The list item becomes the new list, and the active-id item is written when the active id is truthy and kept otherwise. |
| `ConnectionStore.DeleteConnection` | src/stores/database.js:77-92 | Returns true iff some record has the id. If not, nothing changes. If so, exactly the first such record is removed and the rest keep their order. The active id is cleared in memory and in storage iff it was that id. Otherwise it is unchanged in memory, and the active-id item is written when it is truthy and kept otherwise. The list item becomes the new list. |
| `ConnectionStore.SetActiveConnection` | src/stores/database.js:95-103 | Returns true iff some record has the id. In that case the id becomes active and is persisted. Otherwise nothing changes. The list is never touched. |
| `ConnectionStore.ActiveConnection` | src/stores/database.js:106-109 | Gives nothing when the active id is falsy. Otherwise gives the first record with that id, or nothing when no record has it. |
| `ConnectionStore.GetActiveAPI` | src/stores/database.js:112-117 | Gives nothing iff there is no active connection. Otherwise gives a client for its `baseURL`. |
| `ConnectionStore.GetAPIById` | src/stores/database.js:120-126 | Gives nothing iff no record has the id. Otherwise gives a client for the first such record's `baseURL`. |
| `ConnectionStore.DanglingActiveId` | src/stores/database.js:23-25 | A stored active id with no matching record is loaded anyway. It yields no active connection and no API. |
| `ConnectionStore.SetActiveThenActive` | src/stores/database.js:95-109 | After setting a truthy id that a record carries, the active connection is the first record with that id. |
| `ConnectionStore.DeleteActiveClearsIt` | src/stores/database.js:83-86 | Deleting the active record leaves no active connection, neither in memory nor after a reload. |
| `ConnectionStore.AddThenLookup` | src/stores/database.js:45-58 | A record added under an id not in use is what `getAPIById` finds for that id. |
| `ConnectionStore.SameTickAddsShareId` | src/stores/database.js:47 | Two adds in the same millisecond produce the same id. Lookups by that id then reach only the earlier record. |
| `ImportConnections.BatchIdInjective` | src/utils/importConnections.js:108 | `${timestamp}_${i}` equals `${timestamp}_${j}` only when `i == j`. |
| `ImportConnections.BatchIdIsNotAddId` | src/utils/importConnections.js:108 | A batch id never equals an id made by `addConnection`: it contains `_`, while those are all digits. |
| `ImportConnections.NewConnections` | src/utils/importConnections.js:106-114 | Builds one record per config, in order. Record `i` has id `${timestamp}_${i}`, copies `name`/`baseURL`/`tableName`, and copies a truthy description or gets `''`. Its `createdAt` is the `i`-th clock reading, and it has exactly these six fields. |
| `ImportConnections.NewConnectionsDistinctIds` | src/utils/importConnections.js:106-114 | The ids within one batch are pairwise distinct. |
| `ImportConnections.ImportConnections` | src/utils/importConnections.js:93-132 | Fails iff it is merging and the stored list does not parse. Otherwise it returns the number of configs. With merge, the stored list becomes the old list followed by the new records, with no deduplication. Without merge, it becomes just the new records, and the old list is never read. Either way the list item is written as a parseable list, even an empty one. The active-id item is untouched. |
| `ImportConnections.ExportConnections` | src/utils/importConnections.js:147-161 | Returns the stored list when there is one and it parses. Otherwise it returns `[]`, never an error. |
| `ImportConnections.ClearAllConnections` | src/utils/importConnections.js:137-141 | Both storage items are removed. |
| `ImportConnections.ClearThenExport` | src/utils/importConnections.js:137-156 | After clearing, export gives `[]` and a freshly loaded store is empty with no active id. |
| `ImportConnections.DefaultImportCount` | src/utils/importConnections.js:6-93 | With both arguments omitted, the thirteen built-in configs are merged after the stored list and the count is 13. |
| `ImportConnections.ImportThenLoad` | src/utils/importConnections.js:117-122 | After an import, a freshly loaded store holds exactly the list that export returns. |

## Left out

- **Network requests.** `getById`, `create`, `update`, `delete` and the
  request `getList` sends are not modelled. They are HTTP calls with no logic
  of their own. Only the parameter object of `getList` is modelled.
- **The HTTP client and toasts** (`src/utils/request.js`). They are transport
  plumbing. Their one decision, `code` 200 or 201 counts as success, is not
  part of this model.
- **The dev-server configuration middleware** (`vite-plugin-config-manager.js`).
  It is file I/O and HTTP handling. Its list edits mirror the store's.
- **Router and build configuration.** These are static data.
- **Async wrappers in `getTableSchema*`.** The `try`/`catch` and the request
  itself are not modelled. The request's outcome is the `ListResponse`
  parameter: `Threw`, or the returned rows.
- **Browser storage.** It is an abstract two-item record. The model does not
  cover `JSON.stringify` dropping `undefined` fields, `JSON.parse` returning a
  non-list, or `setItem` throwing when storage is full. Written lists are read
  back unchanged.
- **The active id in storage.** It is kept as the value written. The string
  conversion `setItem` applies to a non-string id is not modelled.
- **Time.** `Date.now()` and `new Date().toISOString()` are parameters. The
  import takes one ISO string per record, because the source reads the clock
  inside the `map` callback.
- **Numbers.** NaN, the infinities and `-0` are not modelled. Numbers are
  finite reals, and `Number.isInteger` is `n.Floor as real == n`.
- **Console logging and Vue/Pinia reactivity.** They have no effect on state.
- **Unusual filters objects.** A filters object that is a truthy non-object
  (a string's index keys) is not modelled. Neither is a property named
  `__proto__`, whose assignment JavaScript treats specially. The entries of
  the modelled filters object are taken in `Object.keys` order as given.
- **Non-list `configs`.** An `importConnections` call whose `configs` is
  `null` or not a list (a `TypeError`) is not modelled. Only an omitted
  argument and a list are.
- ConnectionStore.SaveThenLoad: the in-memory active id survives a reload only when it is truthy, because a falsy one is never written. The lemma states what is loaded in that case instead.

=== FILE: connection_store.dfy ===
/** The connection registry store: an in-memory list of connection records and
    the id of the active one, written through to browser storage. Every
    operation is a pure transition on `Store`; the clock and the ISO time
    strings are parameters. */
module ConnectionStore {
  import opened Wrappers
  import opened JsValues
  import opened LocalStorage
  import opened Connections
  import Decimal

  /** `connections`, `activeConnectionId` (`null` when none) and the storage
      they are persisted to. */
  datatype Store = Store(connections: seq<Connection>, activeId: JsValue, disk: Storage)

  /** Some record of `cs` has id `id` (strict equality). */
  ghost predicate HasId(cs: seq<Connection>, id: JsValue) {
    exists j :: 0 <= j < |cs| && IdOf(cs[j]) == id
  }

  /** Record `i` is the first of `cs` with id `id`. */
  ghost predicate IsFirstWithId(cs: seq<Connection>, id: JsValue, i: int) {
    && 0 <= i < |cs|
    && IdOf(cs[i]) == id
    && forall j :: 0 <= j < i ==> IdOf(cs[j]) != id
  }

  /** `findIndex(c => c.id === id)`, scanning from `from`. */
  function FindFrom(cs: seq<Connection>, id: JsValue, from: nat): (r: Option<nat>)
    requires from <= |cs|
    ensures r.Some? ==> from <= r.value < |cs| && IdOf(cs[r.value]) == id
    ensures r.Some? ==> forall j :: from <= j < r.value ==> IdOf(cs[j]) != id
    ensures r.None? ==> forall j :: from <= j < |cs| ==> IdOf(cs[j]) != id
    decreases |cs| - from
  {
    if from == |cs| then None
    else if IdOf(cs[from]) == id then Some(from)
    else FindFrom(cs, id, from + 1)
  }

  /** First-match lookup shared by `findIndex` and `find`: the index of the
      first record with that id, or `None` when there is none. */
  function FindIndex(cs: seq<Connection>, id: JsValue): (r: Option<nat>)
    ensures r.None? <==> !HasId(cs, id)
    ensures r.Some? ==> IsFirstWithId(cs, id, r.value)
  {
    FindFrom(cs, id, 0)
  }

  /** The in-memory active id, when set, is also the persisted one. */
  ghost predicate ActivePersisted(s: Store) {
    Truthy(s.activeId) ==> s.disk.activeId == Some(s.activeId)
  }

  /** `saveConnections`: write the list, and the active id only when truthy;
      a falsy active id leaves the stored item as it was. Memory is untouched. */
  function SaveConnections(s: Store): (r: Store)
    ensures r.connections == s.connections && r.activeId == s.activeId
    ensures r.disk.connections == Some(Parsed(s.connections))
    ensures Truthy(s.activeId) ==> r.disk.activeId == Some(s.activeId)
    ensures !Truthy(s.activeId) ==> r.disk.activeId == s.disk.activeId
  {
    var activeItem := if Truthy(s.activeId) then Some(s.activeId) else s.disk.activeId;
    s.(disk := Storage(Some(Parsed(s.connections)), activeItem))
  }

  /** `loadConnections`: take the stored list when there is one and the stored
      active id when it is truthy. A list that does not parse throws before
      the active id is read, and the handler leaves the state as it was. */
  function LoadConnections(s: Store): (r: Store)
    ensures r.disk == s.disk
    ensures s.disk.connections == Some(Unparsable) ==> r == s
    ensures s.disk.connections.Some? && s.disk.connections.value.Parsed? ==> r.connections == s.disk.connections.value.list
    ensures s.disk.connections.None? ==> r.connections == s.connections
    ensures s.disk.connections != Some(Unparsable) ==>
      r.activeId == if Truthy(StoredActiveId(s.disk)) then StoredActiveId(s.disk) else s.activeId
    ensures ActivePersisted(s) ==> ActivePersisted(r)
  {
    var saved := StoredActiveId(s.disk);
    var active := if Truthy(saved) then saved else s.activeId;
    match s.disk.connections
    case Some(Unparsable) => s
    case Some(Parsed(list)) => s.(connections := list, activeId := active)
    case None => s.(activeId := active)
  }

  /** The store as created: empty, no active id, then loaded from storage. */
  function InitialStore(disk: Storage): (s: Store)
    ensures ActivePersisted(s)
  {
    LoadConnections(Store([], Null, disk))
  }

  /** Saving and then loading gives back the list and the active id. */
  lemma SaveThenLoad(s: Store)
    ensures LoadConnections(SaveConnections(s)).connections == s.connections
    ensures Truthy(s.activeId) ==> LoadConnections(SaveConnections(s)).activeId == s.activeId
    ensures !Truthy(s.activeId) ==>
      LoadConnections(SaveConnections(s)).activeId ==
        (if Truthy(StoredActiveId(s.disk)) then StoredActiveId(s.disk) else s.activeId)
    ensures ActivePersisted(SaveConnections(s))
  {
  }

  /** `addConnection`: append one new record, with id `Date.now()` in decimal,
      and return it; the records before it and the active id are unchanged. */
  function AddConnection(s: Store, input: Obj, now: nat, createdAt: string): (r: (Store, Connection))
    ensures |r.0.connections| == |s.connections| + 1
    ensures r.0.connections[..|s.connections|] == s.connections
    ensures r.0.connections[|s.connections|] == r.1
    ensures IdOf(r.1) == Str(Decimal.NatToString(now))
    ensures forall f :: f in CopiedFields ==> Get(r.1, f) == Get(input, f)
    ensures Truthy(Get(input, "description")) ==> Get(r.1, "description") == Get(input, "description")
    ensures !Truthy(Get(input, "description")) ==> Get(r.1, "description") == Str("")
    ensures Get(r.1, "createdAt") == Str(createdAt)
    ensures r.1.Keys == CopiedFields + {"id", "description", "createdAt"}
    ensures r.0.activeId == s.activeId
    ensures r.0.disk.connections == Some(Parsed(r.0.connections))
    ensures r.0.disk.activeId == if Truthy(s.activeId) then Some(s.activeId) else s.disk.activeId
    ensures ActivePersisted(s) ==> ActivePersisted(r.0)
  {
    var c := NewRecord(Str(Decimal.NatToString(now)), input, createdAt);
    var s' := SaveConnections(s.(connections := s.connections + [c]));
    assert s'.connections[..|s.connections|] == s.connections;
    (s', c)
  }

  /** The spread `{...old, ...updates, updatedAt}`: later sources win. */
  function Merge(current: Connection, updates: Obj, updatedAt: string): (c: Connection)
    ensures c.Keys == current.Keys + updates.Keys + {"updatedAt"}
    ensures forall f :: Get(c, f) == (if f == "updatedAt" then Str(updatedAt)
                                      else if f in updates then updates[f]
                                      else Get(current, f))
  {
    current + updates + map["updatedAt" := Str(updatedAt)]
  }

  /** `updateConnection`: replace the first record with that id by its merge
      with `updates` and an `updatedAt` stamp and report `true`; with no such
      record report `false` and change nothing. */
  function UpdateConnection(s: Store, id: JsValue, updates: Obj, updatedAt: string): (r: (Store, bool))
    ensures r.1 <==> HasId(s.connections, id)
    ensures !r.1 ==> r.0 == s
    ensures |r.0.connections| == |s.connections|
    ensures forall i :: IsFirstWithId(s.connections, id, i) ==>
      && r.0.connections[i] == Merge(s.connections[i], updates, updatedAt)
      && forall j :: 0 <= j < |s.connections| && j != i ==> r.0.connections[j] == s.connections[j]
    ensures r.0.activeId == s.activeId
    ensures r.1 ==> r.0.disk.connections == Some(Parsed(r.0.connections))
    ensures r.1 ==> r.0.disk.activeId == if Truthy(s.activeId) then Some(s.activeId) else s.disk.activeId
    ensures ActivePersisted(s) ==> ActivePersisted(r.0)
  {
    match FindIndex(s.connections, id)
    case None => (s, false)
    case Some(i) =>
      var cs := s.connections[i := Merge(s.connections[i], updates, updatedAt)];
      (SaveConnections(s.(connections := cs)), true)
  }

  /** `deleteConnection`: remove the first record with that id, clear the
      active id (in memory and in storage) when it was that id, and report
      `true`; with no such record report `false` and change nothing. */
  function DeleteConnection(s: Store, id: JsValue): (r: (Store, bool))
    ensures r.1 <==> HasId(s.connections, id)
    ensures !r.1 ==> r.0 == s
    ensures forall i :: IsFirstWithId(s.connections, id, i) ==>
      && |r.0.connections| == |s.connections| - 1
      && (forall j :: 0 <= j < i ==> r.0.connections[j] == s.connections[j])
      && (forall j :: i <= j < |r.0.connections| ==> r.0.connections[j] == s.connections[j + 1])
    ensures r.1 ==> r.0.activeId == if s.activeId == id then Null else s.activeId
    ensures r.1 && s.activeId == id ==> r.0.disk.activeId == None
    ensures r.1 && s.activeId != id ==>
      r.0.disk.activeId == if Truthy(s.activeId) then Some(s.activeId) else s.disk.activeId
    ensures r.1 ==> r.0.disk.connections == Some(Parsed(r.0.connections))
    ensures ActivePersisted(s) ==> ActivePersisted(r.0)
  {
    match FindIndex(s.connections, id)
    case None => (s, false)
    case Some(i) =>
      var cs := s.connections[..i] + s.connections[i + 1..];
      var cleared :=
        if s.activeId == id then s.(connections := cs, activeId := Null, disk := s.disk.(activeId := None))
        else s.(connections := cs);
      (SaveConnections(cleared), true)
  }

  /** `setActiveConnection`: when some record has that id, make it the active
      id, persist it and report `true`; otherwise report `false` and change
      nothing. The list is never touched. */
  function SetActiveConnection(s: Store, id: JsValue): (r: (Store, bool))
    ensures r.1 <==> HasId(s.connections, id)
    ensures !r.1 ==> r.0 == s
    ensures r.1 ==> r.0.activeId == id && r.0.disk.activeId == Some(id)
    ensures r.0.connections == s.connections && r.0.disk.connections == s.disk.connections
    ensures ActivePersisted(s) ==> ActivePersisted(r.0)
  {
    match FindIndex(s.connections, id)
    case None => (s, false)
    case Some(_) => (s.(activeId := id, disk := s.disk.(activeId := Some(id))), true)
  }

  /** `activeConnection`: nothing when the active id is falsy, else the first
      record with that id, which may be missing (a stale stored id). */
  function ActiveConnection(s: Store): (r: Option<Connection>)
    ensures !Truthy(s.activeId) ==> r.None?
    ensures Truthy(s.activeId) ==> (r.Some? <==> HasId(s.connections, s.activeId))
    ensures r.Some? ==> exists i :: IsFirstWithId(s.connections, s.activeId, i) && r.value == s.connections[i]
  {
    if !Truthy(s.activeId) then None
    else
      match FindIndex(s.connections, s.activeId)
      case None => None
      case Some(i) => Some(s.connections[i])
  }

  /** `getActiveAPI`: an API client for the active record's base URL (the
      client is represented by that URL), or nothing without one. */
  function GetActiveAPI(s: Store): (r: Option<JsValue>)
    ensures r.None? <==> ActiveConnection(s).None?
    ensures r.Some? ==> r.value == Get(ActiveConnection(s).value, "baseURL")
  {
    match ActiveConnection(s)
    case None => None
    case Some(c) => Some(Get(c, "baseURL"))
  }

  /** `getAPIById`: an API client for the first record with that id, or
      nothing when no record has it. */
  function GetAPIById(s: Store, id: JsValue): (r: Option<JsValue>)
    ensures r.None? <==> !HasId(s.connections, id)
    ensures r.Some? ==> exists i :: IsFirstWithId(s.connections, id, i) && r.value == Get(s.connections[i], "baseURL")
  {
    match FindIndex(s.connections, id)
    case None => None
    case Some(i) => Some(Get(s.connections[i], "baseURL"))
  }

  /** A stored active id that no record carries is loaded all the same, and
      then there is no active connection and no active API. */
  lemma DanglingActiveId()
    ensures var s := InitialStore(Storage(None, Some(Str("42"))));
      s.activeId == Str("42") && ActiveConnection(s).None? && GetActiveAPI(s).None?
  {
  }

  /** After a successful `setActiveConnection` with a truthy id, the active
      connection is the first record with that id. */
  lemma SetActiveThenActive(s: Store, id: JsValue, i: nat)
    requires Truthy(id) && IsFirstWithId(s.connections, id, i)
    ensures SetActiveConnection(s, id).1
    ensures ActiveConnection(SetActiveConnection(s, id).0) == Some(s.connections[i])
  {
  }

  /** Deleting the active record leaves no active connection, in memory or
      after reloading. */
  lemma DeleteActiveClearsIt(s: Store)
    requires Truthy(s.activeId) && HasId(s.connections, s.activeId)
    ensures var s' := DeleteConnection(s, s.activeId).0;
      ActiveConnection(s').None? && LoadConnections(Store([], Null, s'.disk)).activeId == Null
  {
  }

  /** A record added with a fresh id is what `getAPIById` finds for that id. */
  lemma AddThenLookup(s: Store, input: Obj, now: nat, createdAt: string)
    requires !HasId(s.connections, Str(Decimal.NatToString(now)))
    ensures var r := AddConnection(s, input, now, createdAt);
      GetAPIById(r.0, IdOf(r.1)) == Some(Get(input, "baseURL"))
  {
  }

  /** Two records added in the same millisecond share an id; lookups by that
      id then only ever see the earlier one. */
  lemma SameTickAddsShareId(s: Store, a: Obj, b: Obj, now: nat, t1: string, t2: string)
    requires !HasId(s.connections, Str(Decimal.NatToString(now)))
    ensures var r1 := AddConnection(s, a, now, t1);
      var r2 := AddConnection(r1.0, b, now, t2);
      && IdOf(r1.1) == IdOf(r2.1)
      && GetAPIById(r2.0, IdOf(r2.1)) == Some(Get(a, "baseURL"))
  {
  }
}

=== FILE: connections.dfy ===
/** The connection record that `addConnection` and `importConnections` both
    build from user input. */
module Connections {
  import opened JsValues

  /** A connection record: an object with (at least) `id`, `name`, `baseURL`,
      `tableName`, `description` and `createdAt`, and `updatedAt` once updated. */
  type Connection = Obj

  function IdOf(c: Connection): JsValue {
    Get(c, "id")
  }

  /** The fields copied verbatim from the input. */
  const CopiedFields: set<string> := {"name", "baseURL", "tableName"}

  /** A new record with the given id and creation time, copying the input's
      name, base URL and table name, and its description or `''`. */
  function NewRecord(id: JsValue, input: Obj, createdAt: string): (c: Connection)
    ensures c.Keys == CopiedFields + {"id", "description", "createdAt"}
    ensures IdOf(c) == id && Get(c, "createdAt") == Str(createdAt)
    ensures forall f :: f in CopiedFields ==> Get(c, f) == Get(input, f)
    ensures Truthy(Get(input, "description")) ==> Get(c, "description") == Get(input, "description")
    ensures !Truthy(Get(input, "description")) ==> Get(c, "description") == Str("")
  {
    map[
      "id" := id,
      "name" := Get(input, "name"),
      "baseURL" := Get(input, "baseURL"),
      "tableName" := Get(input, "tableName"),
      "description" := OrElse(Get(input, "description"), Str("")),
      "createdAt" := Str(createdAt)
    ]
  }
}

=== FILE: decimal.dfy ===
/** Decimal rendering of non-negative integers, as `Number.prototype.toString`
    and template literals produce it for the integers the model meets
    (millisecond timestamps and array indices, all far below 10^21). */
module Decimal {

  predicate IsDigit(c: char) {
    '0' <= c <= '9'
  }

  predicate AllDigits(s: string) {
    forall i :: 0 <= i < |s| ==> IsDigit(s[i])
  }

  function DigitChar(d: nat): (c: char)
    requires d < 10
    ensures IsDigit(c)
    ensures c as int - '0' as int == d
  {
    "0123456789"[d]
  }

  /** The shortest decimal numeral of `n`. */
  function NatToString(n: nat): (s: string)
    ensures |s| >= 1
    ensures AllDigits(s)
    ensures s[0] == '0' ==> n == 0
    decreases n
  {
    if n < 10 then [DigitChar(n)] else NatToString(n / 10) + [DigitChar(n % 10)]
  }

  /** The value of a numeral: the reference reading of a digit string. */
  function DigitsValue(s: string): nat
    requires AllDigits(s)
  {
    if |s| == 0 then 0 else DigitsValue(s[..|s| - 1]) * 10 + (s[|s| - 1] as int - '0' as int)
  }

  /** Reading back the rendered numeral gives the number. */
  lemma {:induction false} DigitsValueOfNatToString(n: nat)
    ensures DigitsValue(NatToString(n)) == n
    decreases n
  {
    var s := NatToString(n);
    if n >= 10 {
      DigitsValueOfNatToString(n / 10);
      assert s[..|s| - 1] == NatToString(n / 10);
    }
  }

  /** Distinct numbers render as distinct numerals. */
  lemma NatToStringInjective(a: nat, b: nat)
    ensures NatToString(a) == NatToString(b) ==> a == b
  {
    DigitsValueOfNatToString(a);
    DigitsValueOfNatToString(b);
  }
}

=== FILE: import_connections.dfy ===
/** Batch import, export and clearing of the stored connection list
    (`importConnections`, `exportConnections`, `clearAllConnections`). They work
    on browser storage directly, not on the in-memory store. */
module ImportConnections {
  import opened Wrappers
  import opened JsValues
  import opened LocalStorage
  import opened Connections
  import Decimal
  import ConnectionStore

  function Config(name: string, tableName: string, description: string): Obj {
    map[
      "name" := Str(name),
      "baseURL" := Str("https://frp-fun.com:16570"),
      "tableName" := Str(tableName),
      "description" := Str(description)
    ]
  }

  /** The built-in subsystem list imported when no list is given. */
  const SubsystemConfigs: seq<Obj> := [
    Config("供应商档案", "supplier-archive", "供应商档案管理子系统"),
    Config("发票池表头", "invoice-header", "发票池表头管理子系统"),
    Config("发票池明细", "invoice-detail", "发票池明细管理子系统"),
    Config("费用映射", "expense-mapping", "费用映射配置子系统"),
    Config("客户分部配置", "customer-branch-config", "客户分部配置子系统"),
    Config("法人主体配置", "legal-entity-config", "法人主体配置子系统"),
    Config("用户管理", "user-management", "用户管理子系统"),
    Config("税率配置", "tax-calculation-config", "税率配置子系统"),
    Config("管理员配置", "admin-config", "管理员配置子系统"),
    Config("红字信息表主表", "red-letter-header", "红字信息表主表子系统"),
    Config("红字信息明细表", "red-letter-detail", "红字信息明细表子系统"),
    Config("角色管理", "role-management", "角色管理子系统"),
    Config("项目管理", "project-management", "项目管理子系统")
  ]

  /** The id of the `index`-th record of a batch: `${timestamp}_${index}`. */
  function BatchId(timestamp: nat, index: nat): string {
    Decimal.NatToString(timestamp) + "_" + Decimal.NatToString(index)
  }

  /** Two batch ids with the same timestamp are equal only for the same index. */
  lemma BatchIdInjective(timestamp: nat, i: nat, j: nat)
    ensures BatchId(timestamp, i) == BatchId(timestamp, j) ==> i == j
  {
    var prefix := Decimal.NatToString(timestamp) + "_";
    var a, b := Decimal.NatToString(i), Decimal.NatToString(j);
    if prefix + a == prefix + b {
      assert a == (prefix + a)[|prefix|..];
      assert b == (prefix + b)[|prefix|..];
      Decimal.NatToStringInjective(i, j);
    }
  }

  /** A batch id contains `_`; an `addConnection` id is all digits. So the
      two kinds of id never collide. */
  lemma BatchIdIsNotAddId(timestamp: nat, index: nat, now: nat)
    ensures BatchId(timestamp, index) != Decimal.NatToString(now)
  {
    var id := BatchId(timestamp, index);
    var k := |Decimal.NatToString(timestamp)|;
    assert id[k] == '_';
    assert !Decimal.IsDigit(id[k]);
  }

  /** `configs.map(...)`: one new record per config, in order, with batch ids.
      The callback reads the clock for every record, so record `i` is stamped
      with the `i`-th reading, `createdAts[i]`. */
  function NewConnections(configs: seq<Obj>, timestamp: nat, createdAts: seq<string>): (r: seq<Connection>)
    requires |createdAts| == |configs|
    ensures |r| == |configs|
    ensures forall i :: 0 <= i < |r| ==> IdOf(r[i]) == Str(BatchId(timestamp, i))
    ensures forall i, f :: 0 <= i < |r| && f in CopiedFields ==> Get(r[i], f) == Get(configs[i], f)
    ensures forall i :: 0 <= i < |r| && Truthy(Get(configs[i], "description")) ==>
      Get(r[i], "description") == Get(configs[i], "description")
    ensures forall i :: 0 <= i < |r| && !Truthy(Get(configs[i], "description")) ==> Get(r[i], "description") == Str("")
    ensures forall i :: 0 <= i < |r| ==> Get(r[i], "createdAt") == Str(createdAts[i])
    ensures forall i :: 0 <= i < |r| ==> r[i].Keys == CopiedFields + {"id", "description", "createdAt"}
  {
    seq(|configs|, i requires 0 <= i < |configs| => NewRecord(Str(BatchId(timestamp, i)), configs[i], createdAts[i]))
  }

  /** The records of one batch have pairwise distinct ids. */
  lemma NewConnectionsDistinctIds(configs: seq<Obj>, timestamp: nat, createdAts: seq<string>)
    requires |createdAts| == |configs|
    ensures var r := NewConnections(configs, timestamp, createdAts);
      forall i, j :: 0 <= i < |r| && 0 <= j < |r| && i != j ==> IdOf(r[i]) != IdOf(r[j])
  {
    var r := NewConnections(configs, timestamp, createdAts);
    forall i, j | 0 <= i < |r| && 0 <= j < |r| && i != j
      ensures IdOf(r[i]) != IdOf(r[j])
    {
      BatchIdInjective(timestamp, i, j);
    }
  }

  /** The exception the import re-throws: the stored list did not parse. */
  datatype ImportError = StoredListUnparsable

  /** What a successful import leaves: the new storage and the count it returns. */
  datatype Imported = Imported(disk: Storage, count: nat)

  /** `importConnections(configs = SubsystemConfigs, merge = true)`: build one
      record per config; with a truthy `merge` put them after the stored list
      (read and parsed first), otherwise in place of it; store the result and
      return the number of new records. A stored list that does not parse makes
      a merging import throw. `createdAts` are the clock readings, one per
      record. */
  function ImportConnections(disk: Storage, configs: Option<seq<Obj>>, merge: JsValue, timestamp: nat, createdAts: seq<string>)
    : (r: Result<Imported, ImportError>)
    requires |createdAts| == |configs.GetOr(SubsystemConfigs)|
    ensures var m := WithDefault(merge, Bool(true));
      r.Failure? <==> Truthy(m) && disk.connections == Some(Unparsable)
    ensures r.Success? ==> r.value.count == |configs.GetOr(SubsystemConfigs)|
    ensures r.Success? ==> r.value.disk.activeId == disk.activeId
    ensures r.Success? ==> r.value.disk.connections == Some(Parsed(ExportConnections(r.value.disk)))
    ensures var m, batch := WithDefault(merge, Bool(true)), NewConnections(configs.GetOr(SubsystemConfigs), timestamp, createdAts);
      r.Success? && Truthy(m) ==> ExportConnections(r.value.disk) == ExportConnections(disk) + batch
    ensures var m, batch := WithDefault(merge, Bool(true)), NewConnections(configs.GetOr(SubsystemConfigs), timestamp, createdAts);
      r.Success? && !Truthy(m) ==> ExportConnections(r.value.disk) == batch
  {
    var list := configs.GetOr(SubsystemConfigs);
    var m := WithDefault(merge, Bool(true));
    var existing: Result<seq<Connection>, ImportError> :=
      if !Truthy(m) then Success([])
      else match disk.connections
        case None => Success([])
        case Some(Parsed(saved)) => Success(saved)
        case Some(Unparsable) => Failure(StoredListUnparsable);
    match existing
    case Failure(e) => Failure(e)
    case Success(prior) =>
      var batch := NewConnections(list, timestamp, createdAts);
      var final := if Truthy(m) then prior + batch else batch;
      Success(Imported(disk.(connections := Some(Parsed(final))), |batch|))
  }

  /** `exportConnections`: the stored list, or `[]` when there is none or it
      does not parse; it never throws. */
  function ExportConnections(disk: Storage): (r: seq<Connection>)
    ensures disk.connections.Some? && disk.connections.value.Parsed? ==> r == disk.connections.value.list
    ensures disk.connections.None? || disk.connections == Some(Unparsable) ==> r == []
  {
    match disk.connections
    case Some(Parsed(list)) => list
    case _ => []
  }

  /** `clearAllConnections`: remove both items. */
  function ClearAllConnections(disk: Storage): (r: Storage)
    ensures r.connections.None? && r.activeId.None?
  {
    Storage(None, None)
  }

  /** After clearing, export gives `[]` and a freshly loaded store is empty
      with no active id. */
  lemma ClearThenExport(disk: Storage)
    ensures ExportConnections(ClearAllConnections(disk)) == []
    ensures var s := ConnectionStore.InitialStore(ClearAllConnections(disk));
      s.connections == [] && s.activeId == Null
  {
  }

  /** Importing the built-in list imports thirteen records. */
  lemma DefaultImportCount(disk: Storage, timestamp: nat, createdAts: seq<string>)
    requires disk.connections != Some(Unparsable)
    requires |createdAts| == 13
    ensures ImportConnections(disk, None, Undefined, timestamp, createdAts) == Success(Imported(
      disk.(connections := Some(Parsed(ExportConnections(disk) + NewConnections(SubsystemConfigs, timestamp, createdAts)))), 13))
  {
  }

  /** A store loaded after a successful import holds exactly the exported list. */
  lemma ImportThenLoad(disk: Storage, configs: Option<seq<Obj>>, merge: JsValue, timestamp: nat, createdAts: seq<string>)
    requires |createdAts| == |configs.GetOr(SubsystemConfigs)|
    requires ImportConnections(disk, configs, merge, timestamp, createdAts).Success?
    ensures var d := ImportConnections(disk, configs, merge, timestamp, createdAts).value.disk;
      ConnectionStore.InitialStore(d).connections == ExportConnections(d)
  {
  }
}

=== FILE: js_values.dfy ===
/** The slice of JavaScript's value semantics that the modelled code relies on:
    strict equality, truthiness, property reads on plain objects and default
    parameters. */
module JsValues {

  /** A JavaScript value. Numbers are finite (NaN and the infinities are not
      modelled) and are therefore reals; objects and arrays are references
      compared by identity, so datatype equality is exactly `===`. */
  datatype JsValue =
    | Undefined
    | Null
    | Bool(b: bool)
    | Num(n: real)
    | Str(s: string)
    | Ref(address: nat)

  /** ToBoolean: what `if (v)`, `!v` and `v || d` test. */
  predicate Truthy(v: JsValue) {
    match v
    case Undefined => false
    case Null => false
    case Bool(b) => b
    case Num(n) => n != 0.0
    case Str(s) => s != ""
    case Ref(_) => true
  }

  /** `Number.isInteger` on a finite number. */
  predicate IsInteger(n: real) {
    n.Floor as real == n
  }

  /** A plain object, seen through its own string-keyed properties. */
  type Obj = map<string, JsValue>

  /** Property read `o.f`: a property the object lacks reads as `undefined`. */
  function Get(o: Obj, f: string): JsValue {
    if f in o then o[f] else Undefined
  }

  /** `x || d` */
  function OrElse(x: JsValue, d: JsValue): JsValue {
    if Truthy(x) then x else d
  }

  /** A default parameter value `p = d`: it applies only to `undefined`. */
  function WithDefault(x: JsValue, d: JsValue): JsValue {
    if x.Undefined? then d else x
  }
}

=== FILE: local_storage.dfy ===
/** The browser storage the connection registry persists to, reduced to the two
    items the application uses. Serialisation is abstracted: a list written is
    the list read back. */
module LocalStorage {
  import opened Wrappers
  import opened JsValues

  /** What `JSON.parse` makes of the text stored under `database_connections`:
      a list of objects, or a parse error (the call throws). */
  datatype Saved = Parsed(list: seq<Obj>) | Unparsable

  /** The items `database_connections` and `active_connection_id`; `None` is a
      missing item (or an empty string, which reads as falsy alike). */
  datatype Storage = Storage(connections: Option<Saved>, activeId: Option<JsValue>)

  /** The active-connection item, as a value: `null` when missing. */
  function StoredActiveId(disk: Storage): JsValue {
    disk.activeId.GetOr(Null)
  }
}

=== FILE: query_params.dfy ===
/** The filter-to-query-parameter compiler of `DatabaseAPI` (`buildQueryParams`)
    and the parameter object `getList` assembles around it. */
module QueryParams {
  import opened Wrappers
  import opened JsValues

  /** One condition object. `fieldType` is its `type` property; a property the
      caller left out reads as `Undefined`. */
  datatype Filter = Filter(fieldType: JsValue, operator: JsValue, value: JsValue, startDate: JsValue, endDate: JsValue)

  /** One own property of the filters object, in `Object.keys` order. `None`
      stands for a falsy property value (or anything that is not a condition
      object, whose `value` therefore reads as `undefined`). */
  datatype Entry = Entry(key: string, filter: Option<Filter>)

  /** Query parameter name to value. */
  type Params = map<string, JsValue>

  predicate IsNumericType(t: JsValue) {
    t == Str("int") || t == Str("decimal")
  }

  predicate IsDateType(t: JsValue) {
    t == Str("date") || t == Str("timestamp")
  }

  /** An entry that contributes nothing: no condition, or a condition whose
      `value` is strictly `undefined`, `null` or `''`. */
  predicate Skipped(f: Option<Filter>) {
    match f
    case None => true
    case Some(c) => c.value == Undefined || c.value == Null || c.value == Str("")
  }

  /** Reference definition, one parameter at a time: the value that entry `e`
      gives parameter `p`, if it gives it one. */
  function Emits(e: Entry, p: string): Option<JsValue> {
    if Skipped(e.filter) then None
    else
      var f, k := e.filter.value, e.key;
      if IsNumericType(f.fieldType) then
        if || (f.operator == Str(">") && p == k + "_gt")
           || (f.operator == Str(">=") && p == k + "_gte")
           || (f.operator == Str("<") && p == k + "_lt")
           || (f.operator == Str("<=") && p == k + "_lte")
           || (f.operator == Str("=") && p == k)
        then Some(f.value) else None
      else if f.fieldType == Str("varchar") then
        if p == k + "_like" then Some(f.value) else None
      else if IsDateType(f.fieldType) then
        if p == k + "_start" && Truthy(f.startDate) then Some(f.startDate)
        else if p == k + "_end" && Truthy(f.endDate) then Some(f.endDate)
        else None
      else
        if p == k then Some(f.value) else None
  }

  /** The body of the `forEach` callback: the assignments one entry makes into
      the shared parameter object, branch by branch as the switch makes them. */
  function Assign(params: Params, e: Entry): Params {
    if Skipped(e.filter) then params
    else
      var f, k := e.filter.value, e.key;
      if IsNumericType(f.fieldType) then
        if f.operator == Str(">") then params[k + "_gt" := f.value]
        else if f.operator == Str(">=") then params[k + "_gte" := f.value]
        else if f.operator == Str("<") then params[k + "_lt" := f.value]
        else if f.operator == Str("<=") then params[k + "_lte" := f.value]
        else if f.operator == Str("=") then params[k := f.value]
        else params
      else if f.fieldType == Str("varchar") then params[k + "_like" := f.value]
      else if IsDateType(f.fieldType) then
        var withStart := if Truthy(f.startDate) then params[k + "_start" := f.startDate] else params;
        if Truthy(f.endDate) then withStart[k + "_end" := f.endDate] else withStart
      else params[k := f.value]
  }

  /** The last present value of a sequence of optional writes. */
  function LastSome<T>(ws: seq<Option<T>>): Option<T> {
    if |ws| == 0 then None
    else if ws[|ws| - 1].Some? then ws[|ws| - 1]
    else LastSome(ws[..|ws| - 1])
  }

  /** Write `i` is the last present one. */
  predicate IsLastSome<T>(ws: seq<Option<T>>, i: int) {
    0 <= i < |ws| && ws[i].Some? && forall j :: i < j < |ws| ==> ws[j].None?
  }

  /** Last write wins, positionally: there is a result iff some write is
      present, and then it is the last present write. */
  lemma {:induction false} LastSomeIsLastWrite<T>(ws: seq<Option<T>>)
    ensures LastSome(ws).Some? <==> exists i :: 0 <= i < |ws| && ws[i].Some?
    ensures forall i :: IsLastSome(ws, i) ==> LastSome(ws) == ws[i]
  {
    if |ws| > 0 {
      var n := |ws| - 1;
      var init := ws[..n];
      LastSomeIsLastWrite(init);
      assert forall i :: 0 <= i < n ==> init[i] == ws[i];
      if ws[n].None? {
        if exists i :: 0 <= i < |ws| && ws[i].Some? {
          var i :| 0 <= i < |ws| && ws[i].Some?;
          assert init[i].Some?;
        }
        forall i | IsLastSome(ws, i)
          ensures LastSome(ws) == ws[i]
        {
          assert IsLastSome(init, i);
        }
      }
    }
  }

  /** What each entry, in order, writes to parameter `p`. */
  function Writes(es: seq<Entry>, p: string): (ws: seq<Option<JsValue>>)
    ensures |ws| == |es|
  {
    seq(|es|, i requires 0 <= i < |es| => Emits(es[i], p))
  }

  /** Reference definition of the compiled object, one parameter at a time:
      the value of `p` is the one the last entry writing `p` gives it. */
  function Lookup(es: seq<Entry>, p: string): Option<JsValue> {
    LastSome(Writes(es, p))
  }

  /** `params` holds exactly the parameters `Lookup` finds, with their values. */
  ghost predicate CompiledFrom(es: seq<Entry>, params: Params) {
    forall p :: Lookup(es, p) == if p in params then Some(params[p]) else None
  }

  /** One step of the loop changes exactly the parameters the entry emits. */
  lemma AssignMatchesEmits(params: Params, e: Entry)
    ensures forall p :: p in Assign(params, e) <==> p in params || Emits(e, p).Some?
    ensures forall p :: p in Assign(params, e) ==>
      Assign(params, e)[p] == if Emits(e, p).Some? then Emits(e, p).value else params[p]
  {
  }

  /** Appending an entry to the list extends a correct compilation by one step. */
  lemma CompiledFromAppend(es: seq<Entry>, e: Entry, params: Params)
    requires CompiledFrom(es, params)
    ensures CompiledFrom(es + [e], Assign(params, e))
  {
    forall p
      ensures Writes(es + [e], p) == Writes(es, p) + [Emits(e, p)]
    {
    }
    forall p
      ensures Writes(es + [e], p)[..|es|] == Writes(es, p)
    {
    }
    AssignMatchesEmits(params, e);
  }

  /** `buildQueryParams`: an absent filters object gives no parameters; otherwise
      every entry is visited in key order and writes over what earlier entries
      wrote, so the result is the last-write-wins compilation of the entries. */
  method BuildQueryParams(filters: Option<seq<Entry>>) returns (params: Params)
    ensures filters.None? ==> params == map[]
    ensures CompiledFrom(filters.GetOr([]), params)
  {
    params := map[];
    if filters.None? {
      return;
    }
    var es := filters.value;
    var i := 0;
    while i < |es|
      invariant 0 <= i <= |es|
      invariant CompiledFrom(es[..i], params)
    {
      CompiledFromAppend(es[..i], es[i], params);
      assert es[..i] + [es[i]] == es[..i + 1];
      params := Assign(params, es[i]);
      i := i + 1;
    }
    assert es[..i] == es;
  }

  /** Last write wins over the entries: a parameter is compiled iff some entry
      writes it, and then with the value the last such entry writes. */
  lemma LookupIsLastWrite(es: seq<Entry>, p: string)
    ensures Lookup(es, p).Some? <==> exists i :: 0 <= i < |es| && Emits(es[i], p).Some?
    ensures forall i :: IsLastSome(Writes(es, p), i) ==> Lookup(es, p) == Emits(es[i], p)
  {
    var ws := Writes(es, p);
    LastSomeIsLastWrite(ws);
    if exists i :: 0 <= i < |es| && Emits(es[i], p).Some? {
      var i :| 0 <= i < |es| && Emits(es[i], p).Some?;
      assert ws[i].Some?;
    }
  }

  /** The compiled object is determined by the entries. */
  lemma CompiledFromUnique(es: seq<Entry>, a: Params, b: Params)
    requires CompiledFrom(es, a) && CompiledFrom(es, b)
    ensures a == b
  {
    assert forall p :: p in a <==> Lookup(es, p).Some?;
    assert forall p :: p in b <==> Lookup(es, p).Some?;
  }

  /** A list whose every entry is skipped compiles to no parameters. */
  lemma AllSkippedGivesNothing(es: seq<Entry>, p: string)
    requires forall i :: 0 <= i < |es| ==> Skipped(es[i].filter)
    ensures Lookup(es, p).None?
  {
    LastSomeIsLastWrite(Writes(es, p));
  }

  /** An entry with no condition, or with an empty `value`, writes nothing, even
      a date condition that carries `startDate` or `endDate`. */
  lemma SkippedWritesNothing(e: Entry)
    requires Skipped(e.filter)
    ensures forall p :: Emits(e, p).None?
  {
  }

  /** The emptiness test is strict: `0` and `false` are values like any other. */
  lemma ZeroAndFalseAreValues(k: string, t: JsValue, op: JsValue, v: JsValue)
    requires v == Num(0.0) || v == Bool(false)
    ensures !Skipped(Some(Filter(t, op, v, Undefined, Undefined)))
    ensures Emits(Entry(k, Some(Filter(Str("int"), Str("="), v, Undefined, Undefined))), k) == Some(v)
  {
  }

  /** Entry `e` writes exactly parameter `name`, with value `v`. */
  ghost predicate WritesOnly(e: Entry, name: string, v: JsValue) {
    forall p :: Emits(e, p) == if p == name then Some(v) else None
  }

  /** Numeric conditions: `>`, `>=`, `<`, `<=` write one suffixed parameter, `=`
      writes the bare field name, and any other operator writes nothing. */
  lemma NumericOperators(e: Entry)
    requires !Skipped(e.filter) && IsNumericType(e.filter.value.fieldType)
    ensures var f, k := e.filter.value, e.key;
      && (f.operator == Str(">") ==> WritesOnly(e, k + "_gt", f.value))
      && (f.operator == Str(">=") ==> WritesOnly(e, k + "_gte", f.value))
      && (f.operator == Str("<") ==> WritesOnly(e, k + "_lt", f.value))
      && (f.operator == Str("<=") ==> WritesOnly(e, k + "_lte", f.value))
      && (f.operator == Str("=") ==> WritesOnly(e, k, f.value))
      && (f.operator !in {Str(">"), Str(">="), Str("<"), Str("<="), Str("=")} ==> forall p :: Emits(e, p).None?)
  {
  }

  /** `varchar` conditions write `<field>_like` whatever their operator. */
  lemma VarcharLike(e: Entry)
    requires !Skipped(e.filter) && e.filter.value.fieldType == Str("varchar")
    ensures WritesOnly(e, e.key + "_like", e.filter.value.value)
  {
  }

  /** A condition of any type other than the numeric, text and date types (a
      missing type included) writes the bare field name. */
  lemma DefaultExactMatch(e: Entry)
    requires !Skipped(e.filter)
    requires var t := e.filter.value.fieldType; !IsNumericType(t) && !IsDateType(t) && t != Str("varchar")
    ensures WritesOnly(e, e.key, e.filter.value.value)
  {
  }

  /** Date and timestamp conditions write `<field>_start` exactly when
      `startDate` is truthy and `<field>_end` exactly when `endDate` is truthy,
      never the bare field name and never `value`. */
  lemma DateRanges(e: Entry)
    requires !Skipped(e.filter) && IsDateType(e.filter.value.fieldType)
    ensures var f, k := e.filter.value, e.key;
      && (Emits(e, k + "_start").Some? <==> Truthy(f.startDate))
      && (Truthy(f.startDate) ==> Emits(e, k + "_start") == Some(f.startDate))
      && (Emits(e, k + "_end").Some? <==> Truthy(f.endDate))
      && (Truthy(f.endDate) ==> Emits(e, k + "_end") == Some(f.endDate))
      && (forall p :: p != k + "_start" && p != k + "_end" ==> Emits(e, p).None?)
  {
  }

  predicate IsOrderKey(p: string) {
    p == "order_by" || p == "order_desc"
  }

  /** `getList`: the parameter object is `page` and `page_size` (defaulting to 1
      and 10), then the compiled filters spread over them, then `order_by` and
      `order_desc` when `orderBy` (default `''`) is truthy. */
  method ListParams(page: JsValue, pageSize: JsValue, filters: Option<seq<Entry>>, orderBy: JsValue, orderDesc: JsValue)
    returns (params: Params)
    ensures var es, ob := filters.GetOr([]), WithDefault(orderBy, Str(""));
      forall p :: p in params <==>
        p == "page" || p == "page_size" || (Truthy(ob) && IsOrderKey(p)) || Lookup(es, p).Some?
    ensures var ob := WithDefault(orderBy, Str(""));
      Truthy(ob) ==> params["order_by"] == ob && params["order_desc"] == WithDefault(orderDesc, Bool(false))
    ensures var es, ob := filters.GetOr([]), WithDefault(orderBy, Str(""));
      forall p :: Lookup(es, p).Some? && !(Truthy(ob) && IsOrderKey(p)) ==> params[p] == Lookup(es, p).value
    ensures Lookup(filters.GetOr([]), "page").None? ==> params["page"] == WithDefault(page, Num(1.0))
    ensures Lookup(filters.GetOr([]), "page_size").None? ==> params["page_size"] == WithDefault(pageSize, Num(10.0))
  {
    var filterParams := BuildQueryParams(filters);
    params := map["page" := WithDefault(page, Num(1.0)), "page_size" := WithDefault(pageSize, Num(10.0))] + filterParams;
    var ob := WithDefault(orderBy, Str(""));
    if Truthy(ob) {
      params := params["order_by" := ob]["order_desc" := WithDefault(orderDesc, Bool(false))];
    }
  }
}

=== FILE: type_inference.dfy ===
/** Field type inference from a sample value (`inferFieldType`) and the
    table schema read from the first row of a one-row list request (`getTableSchema`, `getTableSchemaWithTypes`). */
module TypeInference {
  import opened Wrappers
  import opened JsValues
  import D = Decimal

  datatype FieldType = Varchar | Timestamp | Date | Int | Decimal

  /** The characters the regular-expression class `\s` matches: ECMAScript
      WhiteSpace and LineTerminator code points. */
  predicate IsJsSpace(c: char) {
    || c == '\t' || c == '\n' || c == '\U{000B}' || c == '\U{000C}' || c == '\r' || c == ' '
    || c == '\U{00A0}' || c == '\U{1680}' || ('\U{2000}' <= c <= '\U{200A}')
    || c == '\U{2028}' || c == '\U{2029}' || c == '\U{202F}' || c == '\U{205F}'
    || c == '\U{3000}' || c == '\U{FEFF}'
  }

  /** One position of a fixed-length regular expression: `\d`, `\s` or a literal. */
  datatype Token = Digit | Space | Literal(c: char)

  type Pattern = seq<Token>

  predicate TokenMatches(t: Token, c: char) {
    match t
    case Digit => D.IsDigit(c)
    case Space => IsJsSpace(c)
    case Literal(l) => c == l
  }

  /** `/^pattern/.test(s)`: some prefix of `s` matches the pattern token by token. */
  function MatchesPrefix(pat: Pattern, s: string): (r: bool)
    ensures r <==> |pat| <= |s| && forall i :: 0 <= i < |pat| ==> TokenMatches(pat[i], s[i])
  {
    if |pat| == 0 then true
    else if |s| == 0 then false
    else
      var r := TokenMatches(pat[0], s[0]) && MatchesPrefix(pat[1..], s[1..]);
      assert forall i :: 1 <= i < |pat| ==> pat[1..][i - 1] == pat[i];
      assert forall i :: 1 <= i < |pat| && i < |s| ==> s[1..][i - 1] == s[i];
      r
  }

  /** `/^pattern$/.test(s)`: the whole of `s` matches. */
  predicate MatchesWhole(pat: Pattern, s: string) {
    MatchesPrefix(pat, s) && |s| == |pat|
  }

  /** `\d{4}-\d{2}-\d{2}\s\d{2}:\d{2}:\d{2}` */
  const TimestampPattern: Pattern :=
    [Digit, Digit, Digit, Digit, Literal('-'), Digit, Digit, Literal('-'), Digit, Digit,
     Space, Digit, Digit, Literal(':'), Digit, Digit, Literal(':'), Digit, Digit]

  /** `\d{4}-\d{2}-\d{2}` */
  const DatePattern: Pattern :=
    [Digit, Digit, Digit, Digit, Literal('-'), Digit, Digit, Literal('-'), Digit, Digit]

  /** Reference reading of the date part: `YYYY-MM-DD` at the start of `s`. */
  predicate StartsWithDate(s: string) {
    && |s| >= 10
    && (forall i :: 0 <= i < 10 && i != 4 && i != 7 ==> D.IsDigit(s[i]))
    && s[4] == '-' && s[7] == '-'
  }

  /** `s` begins with `YYYY-MM-DD HH:MM:SS`, the separator being any `\s`
      character; anything may follow. */
  predicate TimestampShape(s: string) {
    && StartsWithDate(s)
    && |s| >= 19
    && IsJsSpace(s[10])
    && (forall i :: 11 <= i < 19 && i != 13 && i != 16 ==> D.IsDigit(s[i]))
    && s[13] == ':' && s[16] == ':'
  }

  /** `s` is exactly `YYYY-MM-DD`. */
  predicate DateShape(s: string) {
    StartsWithDate(s) && |s| == 10
  }

  lemma TimestampPatternMeaning(s: string)
    ensures MatchesPrefix(TimestampPattern, s) <==> TimestampShape(s)
  {
  }

  lemma DatePatternMeaning(s: string)
    ensures MatchesWhole(DatePattern, s) <==> DateShape(s)
  {
  }

  /** `inferFieldType`: `null`/`undefined` are text; a string is a timestamp
      when it starts with a date and time, else a date when it is exactly a
      date, else text; a number is an integer or a decimal by
      `Number.isInteger`; anything else is text. */
  function InferFieldType(v: JsValue): (t: FieldType)
    ensures !v.Str? && !v.Num? ==> t == Varchar
    ensures v.Num? ==> (t == Int <==> IsInteger(v.n)) && (t == Decimal <==> !IsInteger(v.n))
    ensures v.Str? ==> && (t == Timestamp <==> TimestampShape(v.s))
                       && (t == Date <==> DateShape(v.s))
                       && (t == Varchar <==> !TimestampShape(v.s) && !DateShape(v.s))
  {
    match v
    case Undefined => Varchar
    case Null => Varchar
    case Str(s) =>
      TimestampPatternMeaning(s);
      DatePatternMeaning(s);
      if MatchesPrefix(TimestampPattern, s) then Timestamp
      else if MatchesWhole(DatePattern, s) then Date
      else Varchar
    case Num(n) => if IsInteger(n) then Int else Decimal
    case _ => Varchar
  }

  /** The timestamp test is not anchored at the end: text after a timestamp
      keeps it a timestamp. */
  lemma TimestampAllowsTrailingText(s: string, rest: string)
    requires InferFieldType(Str(s)) == Timestamp
    ensures InferFieldType(Str(s + rest)) == Timestamp
  {
  }

  /** The date test is anchored at both ends: anything appended to a date
      makes it text unless it completes a timestamp. */
  lemma DateIsExact(s: string, rest: string)
    requires InferFieldType(Str(s)) == Date && rest != ""
    ensures InferFieldType(Str(s + rest)) in {Timestamp, Varchar}
  {
  }

  /** A date-and-time string is never taken for a date, whichever test ran
      first. */
  lemma TimestampAndDateDisjoint(s: string)
    ensures !(TimestampShape(s) && DateShape(s))
  {
  }

  /** One own property of a row, in `Object.keys` order. */
  datatype Field = Field(name: string, value: JsValue)

  type Row = seq<Field>

  /** What the one-row list request produced: it threw (transport or server
      failure), or it returned a body whose `data.data` is absent (`None`) or a
      list of rows. */
  datatype ListResponse = Threw | Returned(rows: Option<seq<Row>>)

  /** The row the schema is read from: the first one, if the request succeeded
      with at least one row. */
  function SampleRow(resp: ListResponse): (r: Option<Row>)
    ensures r.Some? <==> resp.Returned? && resp.rows.Some? && |resp.rows.value| > 0
    ensures r.Some? ==> r.value == resp.rows.value[0]
  {
    match resp
    case Threw => None
    case Returned(rows) =>
      if rows.Some? && |rows.value| > 0 then Some(rows.value[0]) else None
  }

  /** `getTableSchema`: the sample row's property names in order, or none. */
  function TableSchema(resp: ListResponse): (names: seq<string>)
    ensures SampleRow(resp).None? ==> names == []
    ensures SampleRow(resp).Some? ==>
      var row := SampleRow(resp).value;
      |names| == |row| && forall i :: 0 <= i < |row| ==> names[i] == row[i].name
  {
    match SampleRow(resp)
    case None => []
    case Some(row) => seq(|row|, i requires 0 <= i < |row| => row[i].name)
  }

  /** The property names of a row. */
  function Names(row: Row): set<string> {
    set f | f in row :: f.name
  }

  /** No later property of the row has the same name as property `i` (always
      so for the rows of a JSON object, whose keys are distinct). */
  predicate LastOfName(row: Row, i: int)
    requires 0 <= i < |row|
  {
    forall j :: i < j < |row| ==> row[j].name != row[i].name
  }

  /** The key-wise loop of `getTableSchemaWithTypes` over one row: each
      property name is assigned the type inferred from its value, a later
      property overwriting an earlier one of the same name. */
  function RowTypes(row: Row): (schema: map<string, FieldType>)
    ensures schema.Keys == Names(row)
    ensures forall i :: 0 <= i < |row| && LastOfName(row, i) ==> schema[row[i].name] == InferFieldType(row[i].value)
  {
    if |row| == 0 then map[]
    else
      var init, last := row[..|row| - 1], row[|row| - 1];
      assert row == init + [last];
      assert Names(row) == Names(init) + {last.name};
      assert forall i :: 0 <= i < |init| ==> init[i] == row[i];
      RowTypes(init)[last.name := InferFieldType(last.value)]
  }

  /** `getTableSchemaWithTypes`: exactly the names `getTableSchema` lists, each
      with the type inferred from the sample row's value; an error or an empty
      result gives the empty schema. */
  function TableSchemaWithTypes(resp: ListResponse): (schema: map<string, FieldType>)
    ensures SampleRow(resp).None? ==> schema == map[]
    ensures schema.Keys == set n | n in TableSchema(resp)
    ensures SampleRow(resp).Some? ==>
      var row := SampleRow(resp).value;
      forall i :: 0 <= i < |row| && LastOfName(row, i) ==> schema[row[i].name] == InferFieldType(row[i].value)
  {
    match SampleRow(resp)
    case None => map[]
    case Some(row) =>
      var names := TableSchema(resp);
      assert (set n | n in names) == Names(row) by {
        forall n | n in names
          ensures n in Names(row)
        {
          var i :| 0 <= i < |names| && names[i] == n;
          assert row[i] in row;
        }
        forall f | f in row
          ensures f.name in names
        {
          var i :| 0 <= i < |row| && row[i] == f;
          assert names[i] == f.name;
        }
      }
      RowTypes(row)
  }

  /** A row `{id: 1, name: "a"}` gives `id` an integer and `name` a text type. */
  lemma SampleRowExample()
    ensures TableSchemaWithTypes(Returned(Some([[Field("id", Num(1.0)), Field("name", Str("a"))]])))
      == map["id" := Int, "name" := Varchar]
  {
  }
}

=== FILE: wrappers.dfy ===
/** Two small datatypes the model uses in place of JavaScript's absent values
    and thrown exceptions: `Option` for a value that may be missing (an absent
    argument, a missing storage item, a lookup that finds nothing) and
    `Result` for a call that either returns or throws. */
module Wrappers {

  datatype Option<+T> = None | Some(value: T) {

    /** The value when present, else `default`: a JavaScript default parameter
        or `|| fallback` applied to a missing value. */
    function GetOr(default: T): T {
      match this
      case Some(v) => v
      case None => default
    }
  }

  datatype Result<+R, +E> = Success(value: R) | Failure(error: E)
}
